=== FILE: README.md ===
# Application intake and three-step form, in Dafny

This project models the two pieces of logic in a small job-application site.

- **The server's `POST /api/apply` handler.** It takes a loosely typed JSON body `{nombre, edad, nacionalidad, razon, email}` and runs four ordered checks:
  - name and e-mail present;
  - age a positive number;
  - age at least 18;
  - nationality "colombiano" after trimming and lower-casing.

  The first failing check gives a 400 reply with its own message. If every check passes, the handler sends two mails one after the other: a confirmation to the applicant, then a notice to the administration. It replies 200 only when both sends succeed, and 500 otherwise. A field whose conversion to text or number throws a `TypeError` also ends in 500, through the handler's `catch`. Such a field is a JSON object with a `toString` key of its own.
- **The browser form.** It is a three-step state machine:
  1. the name;
  2. age, nationality and reason;
  3. the e-mail and the submission.

  Each step guards its transition with its own checks, stores what the next step needs, and reports the first failure in that step's message slot. The submission posts the stored data plus the trimmed e-mail. A 2xx reply whose body parses as JSON clears the inputs and returns to the first step. Any other reply, a body that is not JSON, and any network failure leave the form on the e-mail step and writes the error to its status line.

## Modules

- `Wrappers`: `Option` and `Result`.
- `Guards`: a chain of early returns, as a list of (check, error) pairs of which the first failure wins. Both sides validate this way.
- `Text`: ASCII `trim()` and `toLowerCase()`.
- `JsValues`: JSON field values and the coercions the code relies on:
  - truthiness (`!x`);
  - numbers as NaN, a finite value or an infinity;
  - `Number(x)`, with a reader for signed decimal numerals and the word `Infinity`;
  - `String(x)` for non-numbers;
  - which objects make these conversions throw;
  - what a number becomes after a JSON round trip: NaN and the infinities become `null`.
- `Eligibility`: the age and nationality rules that both sides enforce, defined once.
- `EmailPattern`: the regular expression `^[^\s@]+@[^\s@]+\.[^\s@]+$`, given two ways:
  - as its language: a local part, '@', a host, '.', and a top-level part;
  - as a plain shape: no white space, exactly one '@' with something before it, and a '.' after it that is neither first nor last.
- `Intake`: the server handler. The two `sendMail` outcomes are parameters, and so is the environment configuration.
- `FormFlow`: the form as `Step(form, event)`. The fetch reply comes with the `Submit` event.

The model also proves some properties across the two sides:
- every reachable form state keeps an invariant;
- the form's two internal error messages can never appear;
- a request the form sends passes the server's validation exactly when its age is finite;
- an age typed as "Infinity" passes the form and is refused by the server (see Findings);
- the confirmation of an accepted submission is the only message written to a step that is not on screen (see Findings).

## Model

| member | source | states |
|---|---|---|
| Guards.FirstFailure | backend/server.js:66-74 | An ordered list of checks yields no error exactly when every check passes. Otherwise it yields the error of a failing check that every earlier check passed. |
| Text.Trim | frontend/js/form.js:74 | The result of `trim()` neither starts nor ends with white space and is no longer than the input. |
| Text.TrimPads | frontend/js/form.js:74 | `trim()` keeps one contiguous slice of the input and removes only white space on either side of it. |
| Text.TrimIdempotent | frontend/js/form.js:98 | Trimming a trimmed value changes nothing. |
| Text.TrimEmptyIffBlank | frontend/js/form.js:74-76 | A value trims to the empty string exactly when it is all white space. |
| Text.TrimIgnoresPadding | backend/server.js:72 | White space added around a value never changes its trimmed form. |
| Text.TrimCommutesWithLower | backend/server.js:72 | Trimming then lower-casing gives the same result as lower-casing then trimming. |
| Text.LowerIdempotent | frontend/js/form.js:69 | Lower-casing twice is the same as lower-casing once. |
| JsValues.NumberOfShowNat | frontend/js/form.js:97 | A whole number written in decimal digits reads back through `Number` as that number. |
| JsValues.NumberOfNegative | backend/server.js:69-70 | A whole number written with a leading minus reads as its negation. |
| JsValues.NumberOfNegativeFraction | backend/server.js:69-70 | `-digits.digits` reads as the negation of its exact decimal value. |
| JsValues.NumberOfFraction | frontend/js/form.js:97 | `digits.digits` reads as its exact decimal value. |
| JsValues.BlankReadsAsZero | frontend/js/form.js:97 | An empty or all-white-space age reads as 0. |
| JsValues.NumberOfInfinity | frontend/js/form.js:97 | "Infinity" reads as plus infinity, and "-Infinity" as minus infinity. |
| JsValues.ThroughJson | frontend/js/form.js:156 | A number sent through `JSON.stringify` arrives as that number when it is finite. NaN and the infinities arrive as `null`, which reads as 0. |
| Eligibility.AdultAgeIsAtLeast18 | backend/server.js:69-71 | The two age checks together pass exactly a finite age of at least 18, or plus infinity. |
| Eligibility.NationalityIgnoresCase | backend/server.js:72 | Two nationalities that lower-case alike are accepted or refused alike. |
| Eligibility.NationalityIgnoresPadding | backend/server.js:72 | White space around the nationality never changes the verdict. |
| Eligibility.NationalityAfterTrim | frontend/js/form.js:98-105 | A nationality already trimmed by the form gets the same verdict when the server trims it again. |
| EmailPattern.MatchesIffWellFormed | frontend/js/form.js:69 | The regular expression accepts exactly these strings: no white space, one '@' at a position after the first, and a domain part with a '.' that is neither its first nor its last character. |
| EmailPattern.LowerKeepsShape | frontend/js/form.js:69 | Lower-casing never changes whether an address has that shape. |
| EmailPattern.MatchesIgnoresCase | frontend/js/form.js:69 | Lower-casing never changes whether the regular expression accepts an address. |
| FormFlow.ValidateEmail | frontend/js/form.js:68-70 | `validateEmail` holds exactly for the addresses of the shape above. |
| FormFlow.ValidateEmailIsPatternTest | frontend/js/form.js:68-70 | `validateEmail` agrees with the regular expression applied to the address as typed. It also agrees with the expression applied to the lower-cased address. |
| Intake.OnlyStringsSpellColombiano | backend/server.js:72 | `String(v)` of a value that is not a string never trims and lower-cases to "colombiano". |
| Intake.Validate | backend/server.js:64-74 | Validation succeeds exactly for the acceptance set. Name and e-mail are truthy. The age reads as a number of at least 18, plus infinity included. The nationality is a string that is "colombiano" once trimmed and lower-cased. |
| Intake.ValidateReportsFirstFailure | backend/server.js:66-74 | Exactly one error is reported: that of the first failing check. The order is: name and e-mail, `Number(edad)` not throwing, valid age, not under age, `String(nacionalidad)` not throwing, nationality. |
| Intake.MissingFieldsRejectedFirst | backend/server.js:67 | The missing-field error is reported exactly when the name or the e-mail is falsy, whatever the other fields hold. |
| Intake.InvalidAgeRejected | backend/server.js:69-70 | The invalid-age error is reported exactly when three things hold: name and e-mail are present, `Number(edad)` does not throw, and the age reads as NaN, 0, a negative number or minus infinity. |
| Intake.ConversionFailureRejected | backend/server.js:69-74 | The handler answers from its `catch` exactly when name and e-mail are present and one of two things holds. Either `Number(edad)` throws, or the age passes and `String(nacionalidad)` throws on a truthy nationality. |
| Intake.UnderageRejected | backend/server.js:71 | The under-age error is reported exactly for a finite positive age below 18. An age of 18 or more, or plus infinity, passes both age checks, and the only errors left are a throwing nationality conversion or a refused nationality. |
| Intake.FractionalAgePasses | backend/server.js:69-71 | The age "18.5" reads as 18.5 and passes both age checks. |
| Intake.NationalityRule | backend/server.js:72-74 | Once the earlier checks pass, a string nationality is accepted exactly when it trims and lower-cases to "colombiano". Any other value is refused: with 500 from the `catch` when `String()` throws on it, and with the nationality error otherwise. |
| Intake.ReasonNeverChecked | backend/server.js:64-74 | Replacing the reason, even with an empty one, never changes the validation result. |
| Intake.Sender | backend/server.js:77 | The sender is never empty. It is `FROM_EMAIL` when that is set. Otherwise it is the SMTP user exactly when that is set, and the fixed default address when neither is set. |
| Intake.AdminAddress | backend/server.js:78 | The administration address is never empty. It is `ADMIN_EMAIL` when that is set. It is `soelucas515@gmail.com` exactly when `ADMIN_EMAIL` is unset or names that same address. |
| Intake.Dispatch | backend/server.js:96-98 | Sends happen in order and are logged in order. Each send after the first happens only after every earlier send succeeded. The log stops right after the first failure. |
| Intake.DispatchSucceedsIffAllDelivered | backend/server.js:96-100 | Every mail goes out and succeeds exactly when the transport accepts every one of them. |
| Intake.DispatchTwo | backend/server.js:97-98 | With two mails, the administration mail is attempted exactly when the applicant mail was delivered. |
| Intake.HandleApply | backend/server.js:62-105 | Status and mails by case: <br>• A failed check: 400 with its message, and no mail. <br>• A conversion that throws: 500, and no mail. <br>• A valid request whose mail text cannot be built: 500, and no mail. <br>• Otherwise, the applicant mail, addressed to the submitted e-mail, goes first. The administration mail follows only if the first was delivered. <br>• 200 with "Correos enviados" exactly when the request is valid, its mails can be built and both were delivered. <br>• 500 with the failure message exactly in the conversion cases above or when a send failed. |
| Intake.ConfirmedYetFailed | backend/server.js:97-103 | When the administration mail fails, the reply is 500 although the confirmation already went to the applicant. |
| Intake.UnrenderableNameIsNotMailed | backend/server.js:81-94 | An eligible applicant whose name is an object with its own `toString` key gets 500 with no mail: building the first mail's text throws. |
| Intake.UnconvertibleAgeFails | backend/server.js:69 | An age that is an object with its own `toString` key gets 500 rather than "Edad inválida.", and no mail. |
| Intake.PaddedCapitalsSpellColombiano | backend/server.js:72 | " COLOMBIANO\t" is an accepted nationality. |
| Intake.AcceptedApplicationExample | backend/server.js:64-100 | A 25-year-old whose nationality is " COLOMBIANO\t" gets 200 after two mails. |
| Intake.UnderageExample | backend/server.js:71 | A 17-year-old gets 400 "Menor de edad. No aplica." and nothing is mailed. |
| FormFlow.ClickNext | frontend/js/form.js:73-86 | The name step touches neither the inputs nor the stored details, sends nothing, and can only show the missing-name message. |
| FormFlow.NextNeedsName | frontend/js/form.js:73-86 | The form moves to the details step exactly when the trimmed name is non-empty, and stores that trimmed name. Otherwise it stays and writes "Por favor ingresa tu nombre.". |
| FormFlow.BackToNameKeepsData | frontend/js/form.js:88-91 | Going back to the name step changes only the visible step. |
| FormFlow.DetailsVerdict | frontend/js/form.js:96-106 | The details checks report nothing exactly when all six pass. They report "name lost" exactly when no name is stored. |
| FormFlow.VerdictIsFirstFailure | frontend/js/form.js:101-106 | The handler's chain of checks reports the same message as the ordered list: stored name, valid age, age of at least 18, nationality present, nationality "colombiano", reason present. |
| FormFlow.ClickContinue | frontend/js/form.js:93-118 | The handler moves to the e-mail step exactly when every check passes, and then stores the checked details. Otherwise it stays unchanged with the failed check's message. It never sends anything. |
| FormFlow.ContinueReportsFirstFailure | frontend/js/form.js:96-106 | At the details step, the first failing check keeps the form where it is and writes that check's message. Only when all checks pass does the form move on. |
| FormFlow.ContinueCarriesDetails | frontend/js/form.js:96-118 | A successful details step stores exactly: the stored name, the age as read, the trimmed nationality and the trimmed reason. The inputs are untouched. |
| FormFlow.ContinueLeavesReady | frontend/js/form.js:101-116 | The stored details of a successful details step pass every details check. |
| FormFlow.BackToDetailsKeepsData | frontend/js/form.js:120-123 | Going back to the details step changes only the visible step. |
| FormFlow.SubmitEmail | frontend/js/form.js:126-182 | Submission behaviour: <br>• It never changes the stored data. <br>• It writes the incomplete-data message exactly when the stored data is incomplete. <br>• It sends a request exactly when the stored data is complete and the trimmed e-mail passes `validateEmail`. <br>• It sends nothing and changes nothing otherwise. <br>• The request is the stored data plus the trimmed e-mail. |
| FormFlow.Outcome | frontend/js/form.js:150-181 | A sent request always writes a message to `#form-status`. The success message is written exactly for a 2xx reply whose body parses as JSON. Every other response leaves the form unchanged; an accepted one resets it to the name step with cleared inputs. |
| FormFlow.SubmitBlockedLocally | frontend/js/form.js:136-147 | Incomplete stored data, or an e-mail the regular expression refuses, keeps the form unchanged on the e-mail step with the matching message, and no request is sent. |
| FormFlow.SubmitBlockedByChecks | frontend/js/form.js:138-147 | The same, stated with `validateEmail`. |
| FormFlow.SubmitSendsCarried | frontend/js/form.js:132-150 | The request sent is the stored name, age, nationality and reason, plus the trimmed e-mail. |
| FormFlow.AcceptedResets | frontend/js/form.js:165-176 | An accepted submission clears all five inputs and returns to the name step. It writes the confirmation with the name and e-mail to `#form-status`. |
| FormFlow.FailureStays | frontend/js/form.js:159-181 | A refused or failed submission leaves the form unchanged. It writes the server's error text, or the exception message, or "Error en el servidor" when the server gave no text. |
| FormFlow.Step | frontend/js/form.js:73-182 | Only a submission from the e-mail step sends a request. Only editing or an accepted submission changes the inputs. Only the name step changes the stored name. Only the details step changes the stored details. |
| FormFlow.StepKeepsConsistent | frontend/js/form.js:73-182 | Every event keeps the invariant: past the name step a name is stored, and on the e-mail step the stored details pass every details check. |
| FormFlow.RunKeepsConsistent | frontend/js/form.js:73-182 | Every sequence of events keeps that invariant. |
| FormFlow.ConsistentHidesInternalErrors | frontend/js/form.js:96-141 | From a state satisfying the invariant, no event writes "nombre perdido" or "datos incompletos". |
| FormFlow.InternalErrorsUnreachable | frontend/js/form.js:96-141 | No state reachable from the initial form ever writes those two messages. |
| FormFlow.ReadyIsEligibleIffFinite | backend/server.js:67-74 | Stored details that passed the form's checks, sent with a non-empty e-mail, are in the server's acceptance set exactly when the age is finite. Otherwise the server answers "Edad inválida.". |
| FormFlow.SentRequestsPassServer | frontend/js/form.js:138-157 | A request sent from a state satisfying the invariant passes the server's validation exactly when its age is finite. Otherwise the server answers "Edad inválida.". |
| FormFlow.ReachableRequestsPassServer | backend/server.js:64-74 | The same holds for every request the form can send from its initial state. |
| FormFlow.InfinityAgePassesDetails | frontend/js/form.js:97-117 | An age typed as "Infinity" passes every details check and is stored as plus infinity. |
| FormFlow.InfiniteAgeIsSentButRefused | frontend/js/form.js:133-156 | With a stored age of plus infinity and a valid e-mail, the form sends the request and the server refuses it as an invalid age. |
| FormFlow.FiniteCheckMatchesServer | backend/server.js:67-74 | The details check extended with a finite-age test passes exactly the details that the server accepts once an e-mail is added. |
| FormFlow.OnlyConfirmationIsHidden | frontend/js/form.js:63-176 | Every message an event writes is on the step left on screen, with one exception. The confirmation of an accepted submission is written to `#form-status` on the e-mail step, which the same handler hides. |
| FormFlow.IntendedPlacementShowsEveryMessage | frontend/js/form.js:63 | With `#form-status` outside the step containers, every message an event writes can be read. |

## Left out

- Express setup, CORS, static file serving and `app.listen` (backend/server.js:22-37, 109). This is framework plumbing with no logic of its own.
- Creating the mail transport, its start-up `verify()`, and reading the environment (backend/server.js:40-59). The configuration is the `Config` parameter, and each `sendMail` outcome is a parameter.
- The subject and text of the two mails (backend/server.js:84-85, 92-93). They are string templates. The model keeps each mail's kind, sender, recipient and the application it carries.
- Logging with `console.error` and `console.warn`.
- DOM lookup and the `show`/`hide` helpers (frontend/js/form.js:1-67). The visible step is the `screen` field, and the `dataset` stores are the `detailsName` and `carried` fields.
- The greeting and the closing note (frontend/js/form.js:82, 111). They are display text.
- `fetch`, `res.json()` and `JSON.stringify`. The outcome of a request is the `Response` carried by the `Submit` event:
  - `Accepted`: a 2xx reply whose body parses as JSON;
  - `Refused`: any other reply, with its `error` text if any;
  - `Broken`: a network failure, or a reply of any status whose body does not parse as JSON (frontend/js/form.js:159 runs before the status test at line 160), with the exception message.
- Events while a request is in flight. The model treats a submission and its reply as one step. The submit button's disabled flag is not a state field: every path of the handler clears it again (frontend/js/form.js:140, 145, 173, 180), so between events the button is always enabled. In the source only the submit button is disabled during the request. The inputs and `#btn-back-to-details` stay usable (frontend/js/form.js:120-123). So the user can go back to the details step and edit while `fetch` is pending. A 2xx reply then shows `#step-name` without hiding `#step-details`, and both steps are on screen at once (frontend/js/form.js:175-176). The single `screen` field cannot express two visible steps. `Consistent` and the line below on hidden steps assume one visible step, which holds only for events outside that window.
- Messages left on screen by earlier events. Each handler clears only the messages it owns. The model reports the message of the current event only. For example, the confirmation stays in `#form-status` and is on screen again the next time the e-mail step is shown.
- Typing. `Edit` replaces all five input values at once.
- Events for a step that is not on screen. Those buttons are hidden, so such events leave the form unchanged.
- `Number()` on exponent, hexadecimal, binary and octal literals. These read as NaN in the model, whereas JavaScript reads them as numbers. An exponent that overflows, such as "1e400", reads as Infinity in JavaScript, with the consequence "Infinity" has in the Findings below. Floating-point rounding and overflow are also left out: finite ages are exact rationals. A plain numeral beyond the double range (about 1.8e308, for example "1" followed by 309 zeros) is Infinity in JavaScript but finite in the model. So "finite" in ReadyIsEligibleIffFinite, SentRequestsPassServer and ReachableRequestsPassServer means finite in the model: such a numeral passes the form, is sent as `null` and is refused by the server, which those lemmas do not predict.
- JSON arrays in the request body. `String(["Colombiano"])` is "Colombiano", so the server would accept such a nationality. The model's values are `undefined`, `null`, booleans, numbers, strings and non-array objects. An object is described only by whether it has a `toString` key of its own, which decides whether its conversions throw.
- Unicode white space and case mapping. `trim()` and `toLowerCase()` are modelled over ASCII only.
- The decimal text of numbers passed to `String()`. No such text spells "colombiano", so only the verdict is modelled.
- frontend/js/averiguador.js is not part of this model: it is an unrelated prompt demo.
- frontend/js/main.js is not part of this model: it only wires start-up.
- The age is not required to be a whole number. The server and the form both accept any positive number of at least 18, as `FractionalAgePasses` shows. The model follows the code here, not a whole-number rule.

## Findings

| source | as written | input that shows it | evidently intended | confidence | as-written member | corrected member |
|---|---|---|---|---|---|---|
| frontend/js/form.js:97-103 | The details step accepts any age that survives `!edad \|\| isNaN(edad) \|\| edad <= 0` and `edad < 18`, plus infinity included. `JSON.stringify` (form.js:156) sends that age as `null`, and the server reads `Number(null)` as 0. | Age typed as "Infinity" if `#edad` takes free text (the markup is not modelled). In a number input, a numeral of 309 or more digits, or "1e400", also reads as Infinity in JavaScript; the model reads the first as finite and the second as NaN, so only "Infinity" is covered by the lemmas. The form moves to the e-mail step and sends the request. The server answers 400 "Edad inválida.". | The form lets through only ages the server accepts, that is, finite ones. | medium, not executed | FormFlow.InfiniteAgeIsSentButRefused | FormFlow.FiniteCheckMatchesServer |
| frontend/js/form.js:63, 166, 175 | The confirmation is written to `#form-status`, which sits inside `#step-email`, and the same handler then hides `#step-email`. | Any submission answered with a 2xx reply. The confirmation is never on screen. | The confirmation can be read after the form returns to the name step. | high, not executed | FormFlow.OnlyConfirmationIsHidden | FormFlow.IntendedPlacementShowsEveryMessage |

The model of the form keeps the checks and element placement as written. The corrected members state what the evidently intended behaviour guarantees: `FiniteDetailsPass` for the details check and `IntendedHome` for the placement of `#form-status`.

=== FILE: eligibility.dfy ===
/**
 * The business rules both the form and the server enforce: a positive age of at least 18
 * and the nationality "colombiano", compared after trimming and lower-casing.
 */
module Eligibility {
  import opened Text
  import opened JsValues

  const AdultAge: real := 18.0
  const AcceptedNationality: string := "colombiano"

  /** The age survives `!x || isNaN(x) || x <= 0`. The positive infinity survives too. */
  predicate PositiveAge(age: JsNumber) {
    NumberTruthy(age) && !age.NaN? && !AtMost(age, 0.0)
  }

  /** The age survives `x < 18`. A NaN compares false, so it survives too. */
  predicate NotUnderage(age: JsNumber) {
    !LessThan(age, AdultAge)
  }

  /** Both age checks: a positive age of at least 18, or the positive infinity. */
  lemma AdultAgeIsAtLeast18(age: JsNumber)
    ensures PositiveAge(age) && NotUnderage(age)
            <==> (age.Finite? && age.value >= AdultAge) || age == Infinity(false)
  {
  }

  /** `s.trim().toLowerCase() === 'colombiano'`. */
  predicate IsColombiano(s: string) {
    Lower(Trim(s)) == AcceptedNationality
  }

  /** Nationality acceptance depends only on the lower-cased text: any mix of upper and lower
      case that spells the same word is accepted or refused alike. */
  lemma NationalityIgnoresCase(s: string, t: string)
    requires Lower(s) == Lower(t)
    ensures IsColombiano(s) <==> IsColombiano(t)
  {
    TrimCommutesWithLower(s);
    TrimCommutesWithLower(t);
  }

  /** White space around the nationality never matters. */
  lemma NationalityIgnoresPadding(before: string, s: string, after: string)
    requires Blank(before) && Blank(after)
    ensures IsColombiano(before + s + after) <==> IsColombiano(s)
  {
    TrimIgnoresPadding(before, s, after);
  }

  /** Once trimmed, a value is judged exactly as before: the form trims first and the
      server trims again. */
  lemma NationalityAfterTrim(s: string)
    ensures IsColombiano(Trim(s)) <==> IsColombiano(s)
  {
    TrimIdempotent(s);
  }
}

=== FILE: emailpattern.dfy ===
/**
 * The e-mail syntax test of the form, `/^[^\s@]+@[^\s@]+\.[^\s@]+$/`, given both as the
 * language of the regular expression and as a plain description of its shape.
 */
module EmailPattern {
  import opened Text

  /** A character of the class `[^\s@]`. */
  predicate Plain(c: char) {
    !IsSpace(c) && c != '@'
  }

  /** A string matching `[^\s@]+`. */
  predicate PlainRun(s: string) {
    s != [] && forall i :: 0 <= i < |s| ==> Plain(s[i])
  }

  /** `e` is in the language of `^[^\s@]+@[^\s@]+\.[^\s@]+$`. */
  ghost predicate Matches(e: string) {
    exists local, host, tld :: PlainRun(local) && PlainRun(host) && PlainRun(tld)
                              && e == local + "@" + host + "." + tld
  }

  /** `d` has a '.' that is neither its first nor its last character. */
  predicate HasInnerDot(d: string) {
    exists k :: 0 < k < |d| - 1 && d[k] == '.'
  }

  predicate NoSpace(e: string) {
    forall k :: 0 <= k < |e| ==> !IsSpace(e[k])
  }

  /** The only '@' of `e` is at position `i`. */
  predicate OnlyAtSignAt(e: string, i: int) {
    0 <= i < |e| && e[i] == '@' && forall k :: 0 <= k < |e| && k != i ==> e[k] != '@'
  }

  /** The shape the pattern describes: no white space, exactly one '@', a non-empty part
      before it, and a part after it with a '.' that is neither its first nor its last
      character. */
  predicate WellFormed(e: string) {
    NoSpace(e) && exists i :: 0 < i < |e| && OnlyAtSignAt(e, i) && HasInnerDot(e[i + 1..])
  }

  lemma MatchesHasShape(e: string)
    requires Matches(e)
    ensures WellFormed(e)
  {
    var local, host, tld :| PlainRun(local) && PlainRun(host) && PlainRun(tld)
                            && e == local + "@" + host + "." + tld;
    var i := |local|;
    var d := host + "." + tld;
    Reassemble(e, local, d, host, tld);
    assert e[i + 1..] == d;
    PlainExceptMarks(local, host, tld);
    assert d[|host|] == '.';
    assert HasInnerDot(d);
    assert OnlyAtSignAt(e, i);
  }

  /** In `local@host.tld` built from runs of `[^\s@]`, every character is of that class but
      the '@' and the '.' between the parts. */
  lemma PlainExceptMarks(local: string, host: string, tld: string)
    requires PlainRun(local) && PlainRun(host) && PlainRun(tld)
    ensures var e := local + "@" + host + "." + tld;
            && |e| == |local| + |host| + |tld| + 2
            && e[|local|] == '@'
            && forall k :: 0 <= k < |e| ==> Plain(e[k]) || k == |local| || k == |local| + 1 + |host|
  {
    var e := local + "@" + host + "." + tld;
    var i := |local|;
    forall k | 0 <= k < |e|
      ensures Plain(e[k]) || k == i || k == i + 1 + |host|
    {
      if k < i {
        assert e[k] == local[k];
      } else if i < k < i + 1 + |host| {
        assert e[k] == host[k - i - 1];
      } else if k > i + 1 + |host| {
        assert e[k] == tld[k - i - 2 - |host|];
      }
    }
  }

  /** `s` cut around its character at `k`. */
  lemma CutAt(s: string, k: int)
    requires 0 <= k < |s|
    ensures s == s[..k] + [s[k]] + s[k + 1..]
  {
  }

  /** Every part of a well-formed address between the '@' and the chosen '.' is a run of
      `[^\s@]`. */
  lemma PartsArePlain(e: string, i: int, k: int)
    requires NoSpace(e) && OnlyAtSignAt(e, i)
    requires 0 < i && 0 < k < |e[i + 1..]| - 1 && e[i + 1..][k] == '.'
    ensures PlainRun(e[..i]) && PlainRun(e[i + 1..][..k]) && PlainRun(e[i + 1..][k + 1..])
  {
    var d := e[i + 1..];
    var local, host, tld := e[..i], d[..k], d[k + 1..];
    forall j | 0 <= j < |local|
      ensures Plain(local[j])
    {
      assert local[j] == e[j];
    }
    forall j | 0 <= j < |host|
      ensures Plain(host[j])
    {
      assert host[j] == e[i + 1 + j];
    }
    forall j | 0 <= j < |tld|
      ensures Plain(tld[j])
    {
      assert tld[j] == e[i + 2 + k + j];
    }
  }

  lemma ShapeMatches(e: string)
    requires WellFormed(e)
    ensures Matches(e)
  {
    var i :| 0 < i < |e| && OnlyAtSignAt(e, i) && HasInnerDot(e[i + 1..]);
    var d := e[i + 1..];
    var k :| 0 < k < |d| - 1 && d[k] == '.';
    var local, host, tld := e[..i], d[..k], d[k + 1..];
    PartsArePlain(e, i, k);
    CutAt(d, k);
    CutAt(e, i);
    Reassemble(e, local, d, host, tld);
    assert PlainRun(local) && PlainRun(host) && PlainRun(tld)
           && e == local + "@" + host + "." + tld;
  }

  lemma Reassemble(e: string, local: string, d: string, host: string, tld: string)
    requires d == host + "." + tld
    ensures e == local + "@" + d <==> e == local + "@" + host + "." + tld
  {
  }

  /** The pattern accepts exactly the strings of the described shape. */
  lemma MatchesIffWellFormed(e: string)
    ensures Matches(e) <==> WellFormed(e)
  {
    if Matches(e) {
      MatchesHasShape(e);
    }
    if WellFormed(e) {
      ShapeMatches(e);
    }
  }

  lemma LowerKeepsShape(e: string)
    ensures WellFormed(Lower(e)) <==> WellFormed(e)
  {
    var l := Lower(e);
    assert NoSpace(l) <==> NoSpace(e);
    forall i | 0 < i < |e|
      ensures OnlyAtSignAt(l, i) <==> OnlyAtSignAt(e, i)
      ensures HasInnerDot(l[i + 1..]) <==> HasInnerDot(e[i + 1..])
    {
      var dl, de := l[i + 1..], e[i + 1..];
      forall k | 0 <= k < |de|
        ensures dl[k] == '.' <==> de[k] == '.'
      {
        assert dl[k] == LowerChar(de[k]);
      }
    }
  }

  /** Lower-casing a string never changes whether the pattern accepts it. */
  lemma MatchesIgnoresCase(e: string)
    ensures Matches(Lower(e)) <==> Matches(e)
  {
    MatchesIffWellFormed(e);
    MatchesIffWellFormed(Lower(e));
    LowerKeepsShape(e);
  }
}

=== FILE: formflow.dfy ===
/**
 * The three-step application form of the browser: name, then age, nationality and reason,
 * then e-mail and submission. The DOM is replaced by an explicit state: which step is on
 * screen, the five input values, and the data each step hands to the next.
 */
module FormFlow {
  import opened Wrappers
  import opened Text
  import opened JsValues
  import opened Eligibility
  import opened EmailPattern
  import opened Guards
  import Intake

  /** `validateEmail`: the pattern test on the lower-cased address. Lower-casing first never
      changes the verdict. */
  function ValidateEmail(email: string): (ok: bool)
    ensures ok <==> WellFormed(email)
  {
    LowerKeepsShape(email);
    WellFormed(Lower(email))
  }

  /** `validateEmail` accepts exactly the addresses the regular expression matches, whatever
      their case. */
  lemma ValidateEmailIsPatternTest(email: string)
    ensures ValidateEmail(email) <==> Matches(email)
    ensures ValidateEmail(email) <==> Matches(Lower(email))
  {
    MatchesIffWellFormed(email);
    MatchesIgnoresCase(email);
  }

  /** The step on screen. */
  datatype Screen = NameStep | DetailsStep | EmailStep

  /** The values of the five inputs, as typed. */
  datatype Fields = Fields(nombre: string, edad: string, nacionalidad: string, razon: string,
                           email: string)

  const Cleared := Fields("", "", "", "", "")

  /** What the details step stores for the e-mail step. The age is kept as the number it
      was read as: `String` then `Number` gives it back, the infinities included. An unset
      age reads as 0 (`dataset.edad || 0`). */
  datatype Carried = Carried(nombre: string, edad: JsNumber, nacionalidad: string, razon: string)

  const NothingCarried := Carried("", Finite(0.0), "", "")

  /** The whole form: the visible step, the inputs, the name stored for the details step
      ("" until set) and the data stored for the e-mail step. */
  datatype Form = Form(screen: Screen, fields: Fields, detailsName: string, carried: Carried)

  const Initial := Form(NameStep, Cleared, "", NothingCarried)

  /** How the request ended: a 2xx reply whose body parses as JSON, an error reply with its
      `error` text if any, or an exception with its message. The exception is a network
      failure, or a body that does not parse as JSON, whatever the status: `res.json()` runs
      before `res.ok` is tested. */
  datatype Response = Accepted | Refused(error: Option<string>) | Broken(message: string)

  /** What the user does. `Edit` replaces the input values; the others are the buttons of
      each step and the submission of the last one, whose outcome comes with it. */
  datatype Event =
    | Edit(fields: Fields)
    | Next
    | BackToName
    | Continue
    | BackToDetails
    | Submit(response: Response)

  /** The element a message is written to. */
  datatype Slot = NameError | DetailsError | EmailError | FormStatus

  /** The step whose container holds each message element. `#form-status` is looked up
      inside `#step-email`, like `#email-error`. A message can be read only while its step is
      on screen. */
  function Home(s: Slot): Screen {
    match s
    case NameError => NameStep
    case DetailsError => DetailsStep
    case EmailError => EmailStep
    case FormStatus => EmailStep
  }

  /** The messages the form writes; `MessageText` gives their exact wording. */
  datatype Message =
    | NameMissing
    | NameLost
    | AgeInvalid
    | UnderageMessage(nombre: string)
    | NationalityMissing
    | NotColombianMessage(nombre: string)
    | ReasonMissing
    | Incomplete
    | EmailInvalid
    | Sent(nombre: string, email: string)
    | SendFailed(detail: string)

  function MessageText(m: Message): string {
    match m
    case NameMissing => "Por favor ingresa tu nombre."
    case NameLost => "Error interno: nombre perdido. Vuelve al paso anterior."
    case AgeInvalid => "Ingresa una edad v\U{00E1}lida."
    case UnderageMessage(nombre) => "Lo siento " + nombre + ", eres menor de edad y no puedes aplicar."
    case NationalityMissing => "Indica tu nacionalidad."
    case NotColombianMessage(nombre) => "Lo siento " + nombre + ", solo colombianos pueden aplicar."
    case ReasonMissing => "Cu\U{00E9}ntanos por qu\U{00E9} quieres aplicar."
    case Incomplete => "Error: datos incompletos. Recarga la p\U{00E1}gina e intenta de nuevo."
    case EmailInvalid => "Email inv\U{00E1}lido."
    case Sent(nombre, email) =>
      "Solicitud enviada. " + nombre + ", recibir\U{00E1}s un correo en " + email
      + ". Tambi\U{00E9}n hemos notificado a la administraci\U{00F3}n."
    case SendFailed(detail) => "No se pudo enviar la solicitud: " + detail
  }

  datatype Notice = Notice(slot: Slot, message: Message)

  /** The JSON body the form posts. */
  datatype Application = Application(nombre: string, edad: JsNumber, nacionalidad: string,
                                     razon: string, email: string)

  /** The state after an event, the message it writes and the request it sends, if any. */
  datatype Transition = Transition(form: Form, notice: Option<Notice>, request: Option<Application>)

  const ServerFallback := "Error en el servidor"

  /** `data?.error || 'Error en el servidor'`. */
  function ServerErrorText(error: Option<string>): string {
    match error
    case Some(t) => if t != [] then t else ServerFallback
    case None => ServerFallback
  }

  function Quiet(f: Form): Transition {
    Transition(f, None, None)
  }

  /** The `btnNext` handler. */
  function ClickNext(f: Form): (t: Transition)
    ensures t.form.fields == f.fields && t.form.carried == f.carried && t.request == None
    ensures t.notice.Some? ==> t.notice.value == Notice(NameError, NameMissing)
  {
    var nombre := Trim(f.fields.nombre);
    if nombre == [] then Transition(f, Some(Notice(NameError, NameMissing)), None)
    else Quiet(f.(screen := DetailsStep, detailsName := nombre))
  }

  /** The checks of the `btnContinue` handler in order, each with its message. */
  function DetailsChecks(f: Form): seq<(bool, Message)> {
    var nombre := f.detailsName;
    var edad := NumberOf(f.fields.edad);
    var nacionalidad := Trim(f.fields.nacionalidad);
    [ (nombre != [], NameLost),
      (PositiveAge(edad), AgeInvalid),
      (NotUnderage(edad), UnderageMessage(nombre)),
      (nacionalidad != [], NationalityMissing),
      (Lower(nacionalidad) == AcceptedNationality, NotColombianMessage(nombre)),
      (Trim(f.fields.razon) != [], ReasonMissing) ]
  }

  /** Every check of the `btnContinue` handler passes. */
  predicate DetailsPass(f: Form) {
    var edad := NumberOf(f.fields.edad);
    var nacionalidad := Trim(f.fields.nacionalidad);
    && f.detailsName != []
    && PositiveAge(edad)
    && NotUnderage(edad)
    && nacionalidad != []
    && Lower(nacionalidad) == AcceptedNationality
    && Trim(f.fields.razon) != []
  }

  /** What the `btnContinue` handler stores when every check passes. */
  function CarriedFrom(f: Form): Carried
    requires DetailsPass(f)
  {
    Carried(f.detailsName, NumberOf(f.fields.edad), Trim(f.fields.nacionalidad),
            Trim(f.fields.razon))
  }

  /** The checks of the `btnContinue` handler as it runs them: the message of the first
      one that fails, or `None` when every one passes. */
  function DetailsVerdict(f: Form): (m: Option<Message>)
    ensures m.None? <==> DetailsPass(f)
    ensures m == Some(NameLost) <==> f.detailsName == []
  {
    var nombre := f.detailsName;
    var edad := NumberOf(f.fields.edad);
    var nacionalidad := Trim(f.fields.nacionalidad);
    if nombre == [] then Some(NameLost)
    else if !PositiveAge(edad) then Some(AgeInvalid)
    else if LessThan(edad, AdultAge) then Some(UnderageMessage(nombre))
    else if nacionalidad == [] then Some(NationalityMissing)
    else if Lower(nacionalidad) != AcceptedNationality then Some(NotColombianMessage(nombre))
    else if Trim(f.fields.razon) == [] then Some(ReasonMissing)
    else None
  }

  /** The `btnContinue` handler: it moves on exactly when every check passes, storing the
      details for the last step, and otherwise stays with the message of the failed check. */
  function ClickContinue(f: Form): (t: Transition)
    ensures t.request == None
    ensures DetailsPass(f) ==> t == Quiet(f.(screen := EmailStep, carried := CarriedFrom(f)))
    ensures !DetailsPass(f) ==> t == Transition(f, Some(Notice(DetailsError, DetailsVerdict(f).value)), None)
  {
    match DetailsVerdict(f)
    case Some(m) => Transition(f, Some(Notice(DetailsError, m)), None)
    case None => Quiet(f.(screen := EmailStep, carried := CarriedFrom(f)))
  }

  /** The carried data passes `!nombre || !edad || !nacionalidad || !razon`. */
  predicate Complete(c: Carried) {
    c.nombre != [] && NumberTruthy(c.edad) && c.nacionalidad != [] && c.razon != []
  }

  /** The `submit` handler, with the reply to its request. */
  function SubmitEmail(f: Form, response: Response): (t: Transition)
    ensures t.form.carried == f.carried && t.form.detailsName == f.detailsName
    ensures t.form.fields == f.fields || t.form.fields == Cleared
    ensures t.notice.Some? && (t.notice.value.slot == FormStatus || t.notice.value.slot == EmailError)
    ensures t.notice == Some(Notice(FormStatus, Incomplete)) <==> !Complete(f.carried)
    ensures t.request.None? ==> t.form == f
    ensures t.request.None? && Complete(f.carried) ==>
              t.notice == Some(Notice(EmailError, EmailInvalid))
    ensures t.request.Some? <==> Complete(f.carried) && ValidateEmail(Trim(f.fields.email))
    ensures t.request.Some? ==>
              t.request.value == Application(f.carried.nombre, f.carried.edad,
                                             f.carried.nacionalidad, f.carried.razon,
                                             Trim(f.fields.email))
    ensures t.request.Some? ==> t == Outcome(f, Trim(f.fields.email), response)
  {
    var c := f.carried;
    var email := Trim(f.fields.email);
    if !Complete(c) then Transition(f, Some(Notice(FormStatus, Incomplete)), None)
    else if !ValidateEmail(email) then Transition(f, Some(Notice(EmailError, EmailInvalid)), None)
    else Outcome(f, email, response)
  }

  /** The request of the `submit` handler and what the form does with its reply: an
      accepted reply clears the inputs and returns to the first step, anything else stays
      with the error shown. */
  function Outcome(f: Form, email: string, response: Response): (t: Transition)
    ensures t.request == Some(Application(f.carried.nombre, f.carried.edad,
                                          f.carried.nacionalidad, f.carried.razon, email))
    ensures t.form == f || t.form == f.(screen := NameStep, fields := Cleared)
    ensures t.notice.Some? && t.notice.value.slot == FormStatus
    ensures t.notice.value.message.Sent? <==> response.Accepted?
    ensures !response.Accepted? ==> t.form == f
  {
    var c := f.carried;
    var sent := Some(Application(c.nombre, c.edad, c.nacionalidad, c.razon, email));
    match response
    case Accepted =>
      Transition(f.(screen := NameStep, fields := Cleared),
                 Some(Notice(FormStatus, Sent(c.nombre, email))), sent)
    case Refused(error) =>
      Transition(f, Some(Notice(FormStatus, SendFailed(ServerErrorText(error)))), sent)
    case Broken(message) =>
      Transition(f, Some(Notice(FormStatus, SendFailed(message))), sent)
  }

  /** One event. A button of a step that is not on screen cannot be pressed, so its event
      changes nothing. */
  function Step(f: Form, e: Event): (t: Transition)
    ensures t.request.Some? ==> e.Submit? && f.screen == EmailStep
    ensures t.form.fields == f.fields || e.Edit? || (e == Submit(Accepted) && t.form.fields == Cleared)
    ensures t.form.detailsName != f.detailsName ==> e.Next?
    ensures t.form.carried != f.carried ==> e.Continue?
  {
    match e
    case Edit(v) => Quiet(f.(fields := v))
    case Next => if f.screen == NameStep then ClickNext(f) else Quiet(f)
    case BackToName => if f.screen == DetailsStep then Quiet(f.(screen := NameStep)) else Quiet(f)
    case Continue => if f.screen == DetailsStep then ClickContinue(f) else Quiet(f)
    case BackToDetails =>
      if f.screen == EmailStep then Quiet(f.(screen := DetailsStep)) else Quiet(f)
    case Submit(response) => if f.screen == EmailStep then SubmitEmail(f, response) else Quiet(f)
  }

  /** The state after a sequence of events. */
  function Run(f: Form, events: seq<Event>): Form
    decreases |events|
  {
    if events == [] then f else Run(Step(f, events[0]).form, events[1..])
  }

  // ---- Guards of each transition ----

  /** Name to details happens exactly when the trimmed name is not empty; the trimmed name
      is stored and nothing else changes. Otherwise the step stays and asks for the name. */
  lemma NextNeedsName(f: Form)
    requires f.screen == NameStep
    ensures var t := Step(f, Next);
            && (t.form.screen == DetailsStep <==> Trim(f.fields.nombre) != [])
            && (Trim(f.fields.nombre) != [] ==>
                  t == Quiet(f.(screen := DetailsStep, detailsName := Trim(f.fields.nombre))))
            && (Trim(f.fields.nombre) == [] ==>
                  t == Transition(f, Some(Notice(NameError, NameMissing)), None))
  {
  }

  /** The details step runs its six checks in order; the first failure keeps the step where
      it is and shows that check's message, and only when all pass does it move on. */
  lemma ContinueReportsFirstFailure(f: Form)
    requires f.screen == DetailsStep
    ensures var t := Step(f, Continue);
            match FirstFailure(DetailsChecks(f)) {
              case Some(m) => t == Transition(f, Some(Notice(DetailsError, m)), None)
              case None => t.form.screen == EmailStep && t.notice == None && t.request == None
            }
  {
    var t := ClickContinue(f);
    assert Step(f, Continue) == t;
    VerdictIsFirstFailure(f);
  }

  /** The handler's chain of checks reports what the ordered list of checks reports. */
  lemma VerdictIsFirstFailure(f: Form)
    ensures DetailsVerdict(f) == FirstFailure(DetailsChecks(f))
  {
    var c := DetailsChecks(f);
    assert c == [c[0], c[1], c[2], c[3], c[4], c[5]];
    FirstOfSix(c[0], c[1], c[2], c[3], c[4], c[5]);
  }

  /** A successful details step carries exactly the stored name, the age as read, and the
      trimmed nationality and reason; the inputs and the stored name are untouched. */
  lemma ContinueCarriesDetails(f: Form)
    requires f.screen == DetailsStep
    requires Step(f, Continue).form.screen == EmailStep
    ensures var edad := NumberOf(f.fields.edad);
            && PositiveAge(edad) && NotUnderage(edad)
            && Step(f, Continue).form
               == f.(screen := EmailStep,
                     carried := Carried(f.detailsName, edad, Trim(f.fields.nacionalidad),
                                        Trim(f.fields.razon)))
  {
    var t := ClickContinue(f);
    assert Step(f, Continue) == t;
    assert DetailsPass(f);
  }

  /** Going back from the details step changes only the visible step. */
  lemma BackToNameKeepsData(f: Form)
    requires f.screen == DetailsStep
    ensures Step(f, BackToName) == Quiet(f.(screen := NameStep))
  {
  }

  /** Going back from the e-mail step changes only the visible step. */
  lemma BackToDetailsKeepsData(f: Form)
    requires f.screen == EmailStep
    ensures Step(f, BackToDetails) == Quiet(f.(screen := DetailsStep))
  {
  }

  /** Submission with incomplete carried data, or with an e-mail the pattern refuses, stays
      on the e-mail step and sends nothing. */
  lemma SubmitBlockedLocally(f: Form, response: Response)
    requires f.screen == EmailStep
    requires !Complete(f.carried) || !Matches(Trim(f.fields.email))
    ensures var t := Step(f, Submit(response));
            && t.form == f
            && t.request == None
            && t.notice == Some(if !Complete(f.carried) then Notice(FormStatus, Incomplete)
                                else Notice(EmailError, EmailInvalid))
  {
    ValidateEmailIsPatternTest(Trim(f.fields.email));
    SubmitBlockedByChecks(f, response);
  }

  lemma SubmitBlockedByChecks(f: Form, response: Response)
    requires f.screen == EmailStep
    requires !Complete(f.carried) || !ValidateEmail(Trim(f.fields.email))
    ensures var t := Step(f, Submit(response));
            && t.form == f
            && t.request == None
            && t.notice == Some(if !Complete(f.carried) then Notice(FormStatus, Incomplete)
                                else Notice(EmailError, EmailInvalid))
  {
    assert Step(f, Submit(response)) == SubmitEmail(f, response);
  }

  /** The request sent is the carried data plus the trimmed e-mail. */
  lemma SubmitSendsCarried(f: Form, response: Response)
    requires Step(f, Submit(response)).request.Some?
    ensures var c := f.carried;
            Step(f, Submit(response)).request
            == Some(Application(c.nombre, c.edad, c.nacionalidad, c.razon, Trim(f.fields.email)))
  {
    assert f.screen == EmailStep;
    var t := SubmitEmail(f, response);
    assert Step(f, Submit(response)) == t;
    assert t == Outcome(f, Trim(f.fields.email), response);
  }

  /** An accepted submission clears all five inputs and returns to the name step, keeping
      only what the steps stored. */
  lemma AcceptedResets(f: Form)
    requires Step(f, Submit(Accepted)).request.Some?
    ensures Step(f, Submit(Accepted)).form == f.(screen := NameStep, fields := Cleared)
    ensures Step(f, Submit(Accepted)).notice
            == Some(Notice(FormStatus, Sent(f.carried.nombre, Trim(f.fields.email))))
  {
    assert f.screen == EmailStep;
    var t := SubmitEmail(f, Accepted);
    assert Step(f, Submit(Accepted)) == t;
    assert t == Outcome(f, Trim(f.fields.email), Accepted);
  }

  /** A refused or failed submission stays on the e-mail step with the server's error text,
      or the fallback text when the server gave none. */
  lemma FailureStays(f: Form, response: Response)
    requires !response.Accepted?
    requires Step(f, Submit(response)).request.Some?
    ensures var t := Step(f, Submit(response));
            && t.form == f
            && t.notice == Some(Notice(FormStatus, SendFailed(
                 if response.Broken? then response.message else ServerErrorText(response.error))))
    ensures response == Refused(None) ==>
              Step(f, Submit(response)).notice
              == Some(Notice(FormStatus, SendFailed(ServerFallback)))
  {
    assert f.screen == EmailStep;
    var t := SubmitEmail(f, response);
    assert Step(f, Submit(response)) == t;
    assert t == Outcome(f, Trim(f.fields.email), response);
  }

  // ---- What reachable states look like ----

  /** What a successful details step leaves for the e-mail step. */
  predicate ReadyToSend(c: Carried) {
    && c.nombre != []
    && PositiveAge(c.edad)
    && NotUnderage(c.edad)
    && c.nacionalidad != []
    && IsColombiano(c.nacionalidad)
    && c.razon != []
  }

  /** The invariant of every reachable state: past the name step a name is stored, and on
      the e-mail step the carried data passed every details check. */
  predicate Consistent(f: Form) {
    && (f.screen != NameStep ==> f.detailsName != [])
    && (f.screen == EmailStep ==> ReadyToSend(f.carried))
  }

  /** A details step that passes leaves data ready for the e-mail step. */
  lemma ContinueLeavesReady(f: Form)
    requires DetailsPass(f)
    ensures ReadyToSend(CarriedFrom(f))
  {
    TrimIdempotent(f.fields.nacionalidad);
  }

  /** Every event keeps the invariant. */
  lemma StepKeepsConsistent(f: Form, e: Event)
    requires Consistent(f)
    ensures Consistent(Step(f, e).form)
  {
    if e.Continue? && f.screen == DetailsStep {
      assert Step(f, e) == ClickContinue(f);
      if DetailsPass(f) {
        ContinueLeavesReady(f);
      }
    }
  }

  /** Every state reachable from the initial form satisfies the invariant. */
  lemma {:induction false} RunKeepsConsistent(f: Form, events: seq<Event>)
    requires Consistent(f)
    ensures Consistent(Run(f, events))
    decreases |events|
  {
    if events != [] {
      StepKeepsConsistent(f, events[0]);
      RunKeepsConsistent(Step(f, events[0]).form, events[1..]);
    }
  }

  /** From a consistent state the internal "name lost" error and the "incomplete data"
      error never appear. */
  lemma ConsistentHidesInternalErrors(f: Form, e: Event)
    requires Consistent(f)
    ensures Step(f, e).notice != Some(Notice(DetailsError, NameLost))
    ensures Step(f, e).notice != Some(Notice(FormStatus, Incomplete))
  {
    match e
    case Continue =>
      if f.screen == DetailsStep {
        assert Step(f, e) == ClickContinue(f);
      }
    case Submit(response) =>
      if f.screen == EmailStep {
        assert Step(f, e) == SubmitEmail(f, response);
      }
    case _ =>
  }

  /** In a reachable state those two errors never appear. */
  lemma InternalErrorsUnreachable(events: seq<Event>, e: Event)
    ensures Step(Run(Initial, events), e).notice != Some(Notice(DetailsError, NameLost))
    ensures Step(Run(Initial, events), e).notice != Some(Notice(FormStatus, Incomplete))
  {
    RunKeepsConsistent(Initial, events);
    ConsistentHidesInternalErrors(Run(Initial, events), e);
  }

  // ---- The form and the server agree ----

  /** The request body as the server sees it after JSON encoding and decoding: a
      non-finite age arrives as `null`. */
  function Wire(a: Application): Intake.Payload {
    Intake.Payload(Str(a.nombre), ThroughJson(a.edad), Str(a.nacionalidad), Str(a.razon),
                   Str(a.email))
  }

  /** Data ready to send, with a non-empty e-mail, is accepted by the server exactly when
      its age is finite. The only other age ready data can hold is the positive infinity,
      which arrives as `null`, reads as 0 and is refused as an invalid age. */
  lemma ReadyIsEligibleIffFinite(c: Carried, email: string)
    requires ReadyToSend(c) && email != []
    ensures var p := Wire(Application(c.nombre, c.edad, c.nacionalidad, c.razon, email));
            && (Intake.Validate(p).Success? <==> c.edad.Finite?)
            && (!c.edad.Finite? ==> Intake.Validate(p) == Failure(Intake.InvalidAge))
  {
  }

  /** A request sent from a consistent state passes the server's validation exactly when
      its age is finite; otherwise the server answers "Edad inválida.". */
  lemma SentRequestsPassServer(f: Form, e: Event)
    requires Consistent(f)
    requires Step(f, e).request.Some?
    ensures var a := Step(f, e).request.value;
            && (Intake.Validate(Wire(a)).Success? <==> a.edad.Finite?)
            && (!a.edad.Finite? ==> Intake.Validate(Wire(a)) == Failure(Intake.InvalidAge))
  {
    assert Step(f, e) == SubmitEmail(f, e.response);
    ReadyIsEligibleIffFinite(f.carried, Trim(f.fields.email));
  }

  /** The same, for any sequence of events from the initial form. */
  lemma ReachableRequestsPassServer(events: seq<Event>, e: Event)
    requires Step(Run(Initial, events), e).request.Some?
    ensures var a := Step(Run(Initial, events), e).request.value;
            && (Intake.Validate(Wire(a)).Success? <==> a.edad.Finite?)
            && (!a.edad.Finite? ==> Intake.Validate(Wire(a)) == Failure(Intake.InvalidAge))
  {
    RunKeepsConsistent(Initial, events);
    SentRequestsPassServer(Run(Initial, events), e);
  }

  /** The age "Infinity" passes every age check of the details step and is stored as the
      positive infinity. */
  lemma InfinityAgePassesDetails(f: Form, w: string)
    requires f.screen == DetailsStep && f.detailsName != []
    requires w == InfinityWord && f.fields.edad == w
    requires IsColombiano(f.fields.nacionalidad) && Trim(f.fields.razon) != []
    ensures Step(f, Continue).form.screen == EmailStep
    ensures Step(f, Continue).form.carried.edad == Infinity(false)
  {
    NumberOfInfinity(w);
    assert DetailsPass(f);
    assert Step(f, Continue) == ClickContinue(f);
  }

  /** Such a stored age is sent with any valid e-mail, and the server refuses it. */
  lemma InfiniteAgeIsSentButRefused(f: Form, response: Response)
    requires Consistent(f) && f.screen == EmailStep && f.carried.edad == Infinity(false)
    requires ValidateEmail(Trim(f.fields.email))
    ensures var t := Step(f, Submit(response));
            && t.request.Some?
            && Intake.Validate(Wire(t.request.value)) == Failure(Intake.InvalidAge)
  {
    assert Step(f, Submit(response)) == SubmitEmail(f, response);
    SentRequestsPassServer(f, Submit(response));
  }

  /** The details check that keeps the form in agreement with the server: the six checks,
      and a finite age, since `JSON.stringify` sends any other number as `null`. */
  predicate FiniteDetailsPass(f: Form) {
    DetailsPass(f) && NumberOf(f.fields.edad).Finite?
  }

  /** With that check, the details step passes exactly the data the server accepts once an
      e-mail is added. */
  lemma FiniteCheckMatchesServer(f: Form, email: string)
    requires email != []
    ensures FiniteDetailsPass(f)
            <==> && DetailsPass(f)
                 && var c := CarriedFrom(f);
                    Intake.Validate(Wire(Application(c.nombre, c.edad, c.nacionalidad, c.razon,
                                                     email))).Success?
  {
    if DetailsPass(f) {
      ContinueLeavesReady(f);
      ReadyIsEligibleIffFinite(CarriedFrom(f), email);
    }
  }

  // ---- Where messages land ----

  /** Every message an event writes is on the step left on screen, except the confirmation
      of an accepted submission: it goes to `#form-status`, inside the e-mail step, which
      the same handler then hides. */
  lemma OnlyConfirmationIsHidden(f: Form, e: Event)
    requires Step(f, e).notice.Some?
    ensures var n := Step(f, e).notice.value;
            n.message.Sent? ==> n.slot == FormStatus
    ensures var t := Step(f, e);
            Home(t.notice.value.slot) == t.form.screen <==> !t.notice.value.message.Sent?
  {
    match e
    case Next =>
      assert Step(f, e) == ClickNext(f);
    case Continue =>
      assert Step(f, e) == ClickContinue(f);
    case Submit(response) =>
      var t := SubmitEmail(f, response);
      assert Step(f, e) == t;
      if t.request.Some? {
        if response.Accepted? {
          AcceptedResets(f);
        } else {
          FailureStays(f, response);
        }
      }
    case _ =>
  }

  /** Where `#form-status` evidently belongs: outside the step containers, readable on
      every step. The other elements stay where they are. */
  function IntendedHome(s: Slot): Option<Screen> {
    if s == FormStatus then None else Some(Home(s))
  }

  predicate ReadableOn(home: Option<Screen>, screen: Screen) {
    home.None? || home.value == screen
  }

  /** With `#form-status` outside the steps, every message an event writes can be read. */
  lemma IntendedPlacementShowsEveryMessage(f: Form, e: Event)
    requires Step(f, e).notice.Some?
    ensures var t := Step(f, e);
            ReadableOn(IntendedHome(t.notice.value.slot), t.form.screen)
  {
    OnlyConfirmationIsHidden(f, e);
  }
}

=== FILE: guards.dfy ===
/**
 * Both the server and the form validate with a chain of early returns: the checks run
 * in a fixed order and the first one that fails decides the error.
 */
module Guards {
  import opened Wrappers

  /** The error of the first check in `checks` that does not pass, or `None` when all pass. */
  function FirstFailure<E(==)>(checks: seq<(bool, E)>): (r: Option<E>)
    ensures r.None? <==> forall i :: 0 <= i < |checks| ==> checks[i].0
    ensures r.Some? ==> exists i :: 0 <= i < |checks| && !checks[i].0 && checks[i].1 == r.value
                                    && forall j :: 0 <= j < i ==> checks[j].0
  {
    if checks == [] then None
    else if !checks[0].0 then Some(checks[0].1)
    else
      var r := FirstFailure(checks[1..]);
      assert forall i :: 0 < i < |checks| ==> checks[i] == checks[1..][i - 1];
      assert r.Some? ==> exists i :: 0 <= i < |checks| && !checks[i].0 && checks[i].1 == r.value
                                     && forall j :: 0 <= j < i ==> checks[j].0 by {
        if r.Some? {
          var k :| 0 <= k < |checks[1..]| && !checks[1..][k].0 && checks[1..][k].1 == r.value
                   && forall j :: 0 <= j < k ==> checks[1..][j].0;
          assert !checks[k + 1].0 && checks[k + 1].1 == r.value;
          assert forall j :: 0 <= j < k + 1 ==> checks[j].0;
        }
      }
      r
  }

  /** A chain of six checks, spelled out: the first failing one wins. */
  lemma FirstOfSix<E>(c0: (bool, E), c1: (bool, E), c2: (bool, E), c3: (bool, E),
                      c4: (bool, E), c5: (bool, E))
    ensures FirstFailure([c0, c1, c2, c3, c4, c5])
            == if !c0.0 then Some(c0.1) else if !c1.0 then Some(c1.1)
               else if !c2.0 then Some(c2.1) else if !c3.0 then Some(c3.1)
               else if !c4.0 then Some(c4.1) else if !c5.0 then Some(c5.1) else None
  {
    assert [c5][1..] == [];
    assert FirstFailure([c5]) == if !c5.0 then Some(c5.1) else None;
    assert [c4, c5][1..] == [c5];
    assert FirstFailure([c4, c5]) == if !c4.0 then Some(c4.1) else FirstFailure([c5]);
    assert [c3, c4, c5][1..] == [c4, c5];
    assert FirstFailure([c3, c4, c5]) == if !c3.0 then Some(c3.1) else FirstFailure([c4, c5]);
    assert [c2, c3, c4, c5][1..] == [c3, c4, c5];
    assert FirstFailure([c2, c3, c4, c5])
           == if !c2.0 then Some(c2.1) else FirstFailure([c3, c4, c5]);
    assert [c1, c2, c3, c4, c5][1..] == [c2, c3, c4, c5];
    assert FirstFailure([c1, c2, c3, c4, c5])
           == if !c1.0 then Some(c1.1) else FirstFailure([c2, c3, c4, c5]);
    assert [c0, c1, c2, c3, c4, c5][1..] == [c1, c2, c3, c4, c5];
  }
}

=== FILE: intake.dfy ===
/**
 * The server's `POST /api/apply` handler: an ordered validation of the request body
 * followed by two mails sent one after the other, and the HTTP reply.
 */
module Intake {
  import opened Wrappers
  import opened Text
  import opened JsValues
  import opened Eligibility
  import opened Guards

  /** The five fields destructured from the request body. */
  datatype Payload = Payload(nombre: JsValue, edad: JsValue, nacionalidad: JsValue,
                             razon: JsValue, email: JsValue)

  /** What destructuring `req.body || {}` yields when there is no body. */
  const NoFields := Payload(Undefined, Undefined, Undefined, Undefined, Undefined)

  /** The four validation failures, in the order they are checked, and the `TypeError` a
      conversion of a field throws (see `Converts`), which the handler's `catch` answers. */
  datatype Rejection = MissingNameOrEmail | InvalidAge | Underage | NotColombian | ConversionThrew

  function RejectionText(r: Rejection): string {
    match r
    case MissingNameOrEmail => "Nombre y email son requeridos."
    case InvalidAge => "Edad inv\U{00E1}lida."
    case Underage => "Menor de edad. No aplica."
    case NotColombian => "Solo colombianos pueden aplicar."
    case ConversionThrew => FailureMessage
  }

  /** The status of the reply to a rejection: 400 for a failed check, 500 from the `catch`. */
  function RejectionStatus(r: Rejection): int {
    if r == ConversionThrew then 500 else 400
  }

  /** The nationality is present and `String(v).trim().toLowerCase()` is "colombiano".
      Only strings can pass: see `OnlyStringsSpellColombiano`. */
  predicate NationalityAccepted(v: JsValue) {
    Truthy(v) && v.Str? && IsColombiano(v.s)
  }

  /** `String(v)` of a value that is not a string ("undefined", "null", "true", "false",
      "[object Object]") never trims and lower-cases to "colombiano". */
  lemma OnlyStringsSpellColombiano(v: JsValue, t: string)
    requires !v.Str? && StringForm(v) == Some(t)
    ensures !IsColombiano(t)
  {
    if v.Object? {
      assert t == "[object Object]";
      TrimKeepsWord(t);
    }
  }

  /** The acceptance set of the server: what a request must satisfy to reach the mails. */
  predicate Eligible(p: Payload) {
    && Truthy(p.nombre)
    && Truthy(p.email)
    && PositiveAge(ToNumber(p.edad))
    && NotUnderage(ToNumber(p.edad))
    && NationalityAccepted(p.nacionalidad)
  }

  /** The validation block: each check in turn, the first failure is returned. */
  function Validate(p: Payload): (r: Result<(), Rejection>)
    ensures r.Success? <==> Eligible(p)
  {
    if !Truthy(p.nombre) || !Truthy(p.email) then Failure(MissingNameOrEmail)
    else if !Converts(p.edad) then Failure(ConversionThrew)
    else
      var age := ToNumber(p.edad);
      if !PositiveAge(age) then Failure(InvalidAge)
      else if !NotUnderage(age) then Failure(Underage)
      else if Truthy(p.nacionalidad) && !Converts(p.nacionalidad) then Failure(ConversionThrew)
      else if !NationalityAccepted(p.nacionalidad) then Failure(NotColombian)
      else Success(())
  }

  /** The checks in source order, each paired with the error it reports: `Number(edad)`
      comes before the age checks, and `String(nacionalidad)` runs only for a truthy
      nationality. */
  function Checks(p: Payload): seq<(bool, Rejection)> {
    var age := ToNumber(p.edad);
    [ (Truthy(p.nombre) && Truthy(p.email), MissingNameOrEmail),
      (Converts(p.edad), ConversionThrew),
      (PositiveAge(age), InvalidAge),
      (NotUnderage(age), Underage),
      (!Truthy(p.nacionalidad) || Converts(p.nacionalidad), ConversionThrew),
      (NationalityAccepted(p.nacionalidad), NotColombian) ]
  }

  /** Exactly one error is reported, and it is that of the first failing check. */
  lemma ValidateReportsFirstFailure(p: Payload)
    ensures Validate(p) == match FirstFailure(Checks(p)) {
                             case None => Success(())
                             case Some(e) => Failure(e)
                           }
  {
    var c := Checks(p);
    assert c == [c[0], c[1], c[2], c[3], c[4], c[5]];
    FirstOfSix(c[0], c[1], c[2], c[3], c[4], c[5]);
  }

  /** A falsy name or e-mail is reported before anything else is looked at. */
  lemma MissingFieldsRejectedFirst(p: Payload)
    ensures Validate(p) == Failure(MissingNameOrEmail) <==> !Truthy(p.nombre) || !Truthy(p.email)
  {
  }

  /** An age that converts but reads as NaN, 0, a negative number or the negative infinity
      is rejected as invalid once name and e-mail are there. */
  lemma InvalidAgeRejected(p: Payload)
    ensures Validate(p) == Failure(InvalidAge)
            <==> Truthy(p.nombre) && Truthy(p.email) && Converts(p.edad)
                 && (ToNumber(p.edad).NaN? || AtMost(ToNumber(p.edad), 0.0))
  {
  }

  /** A conversion throws, and the handler answers from its `catch`, exactly when the age
      does not convert, or when the age passes and a truthy nationality does not convert. */
  lemma ConversionFailureRejected(p: Payload)
    ensures Validate(p) == Failure(ConversionThrew)
            <==> Truthy(p.nombre) && Truthy(p.email)
                 && (|| !Converts(p.edad)
                     || (&& PositiveAge(ToNumber(p.edad)) && NotUnderage(ToNumber(p.edad))
                         && Truthy(p.nacionalidad) && !Converts(p.nacionalidad)))
  {
  }

  /** A finite positive age below 18 is rejected as under age. An age of 18 or more, or the
      positive infinity, passes both age checks. */
  lemma UnderageRejected(p: Payload)
    ensures Validate(p) == Failure(Underage)
            <==> Truthy(p.nombre) && Truthy(p.email)
                 && ToNumber(p.edad).Finite? && 0.0 < ToNumber(p.edad).value < AdultAge
    ensures Truthy(p.nombre) && Truthy(p.email)
            && ((ToNumber(p.edad).Finite? && ToNumber(p.edad).value >= AdultAge)
                || ToNumber(p.edad) == Infinity(false))
            ==> Validate(p) in {Success(()), Failure(ConversionThrew), Failure(NotColombian)}
  {
  }

  /** An age typed as "18.5" is a valid adult age: the server does not ask for a whole
      number. The numerals are parameters fixed by the precondition rather than literals,
      which keeps the proof cheap for the verifier. */
  lemma FractionalAgePasses(p: Payload, w: string, fr: string)
    requires w == "18" && fr == "5" && p.edad == Str(w + "." + fr)
    ensures ToNumber(p.edad) == Finite(18.5)
    ensures Validate(p) != Failure(InvalidAge) && Validate(p) != Failure(Underage)
  {
    NumberOfFraction(w, fr);
    assert DigitsValue(w[..1]) == 1 by {
      assert w[..1][..0] == [];
    }
    assert DigitsValue(w) == 18;
    assert DigitsValue(fr) == 5 by {
      assert fr[..0] == [];
    }
  }

  /** With the earlier checks passed, a string nationality is accepted exactly when it trims
      and lower-cases to "colombiano". Any other value is rejected, from the `catch` when
      its conversion throws. */
  lemma NationalityRule(p: Payload)
    requires Truthy(p.nombre) && Truthy(p.email)
    requires PositiveAge(ToNumber(p.edad)) && NotUnderage(ToNumber(p.edad))
    ensures p.nacionalidad.Str? ==>
              (Validate(p).Success? <==> Lower(Trim(p.nacionalidad.s)) == "colombiano")
    ensures !p.nacionalidad.Str? ==>
              Validate(p) == if Converts(p.nacionalidad) then Failure(NotColombian)
                             else Failure(ConversionThrew)
  {
    if p.nacionalidad.Str? {
      TrimEmptyIffBlank(p.nacionalidad.s);
    }
  }

  /** The reason is never validated: replacing it changes nothing, even when it is empty. */
  lemma ReasonNeverChecked(p: Payload, razon: JsValue)
    ensures Validate(p.(razon := razon)) == Validate(p)
  {
  }

  /** Where the configuration comes from the environment; an empty string is an unset
      variable. */
  datatype Config = Config(fromEmail: string, smtpUser: string, adminEmail: string)

  const DefaultSender := "no-reply@example.com"
  const DefaultAdmin := "soelucas515@gmail.com"

  /** `FROM_EMAIL || smtpUser || 'no-reply@example.com'`. */
  function Sender(c: Config): (from: string)
    ensures from != []
    ensures from in {c.fromEmail, c.smtpUser, DefaultSender}
    ensures c.fromEmail != [] ==> from == c.fromEmail
    ensures c.fromEmail == [] ==> (from == c.smtpUser <==> c.smtpUser != [])
  {
    if c.fromEmail != [] then c.fromEmail
    else if c.smtpUser != [] then c.smtpUser
    else DefaultSender
  }

  /** `ADMIN_EMAIL || 'soelucas515@gmail.com'`. */
  function AdminAddress(c: Config): (to: string)
    ensures to != []
    ensures c.adminEmail != [] ==> to == c.adminEmail
    ensures to == DefaultAdmin <==> c.adminEmail == [] || c.adminEmail == DefaultAdmin
  {
    if c.adminEmail != [] then c.adminEmail else DefaultAdmin
  }

  datatype MailKind = Confirmation | AdminNotice

  /** A message handed to the transport; the subject and text are left out, the
      application it reports is kept. */
  datatype Mail = Mail(kind: MailKind, from: string, to: JsValue, application: Payload)

  /** What the transport answers to one `sendMail` call. */
  datatype SendOutcome = Delivered | Failed

  datatype Attempt = Attempt(mail: Mail, outcome: SendOutcome)

  /** Awaits each send before starting the next, and stops at the first failure (the
      rejection propagates). `outcomes[i]` is what the transport answers to the i-th mail. */
  function Dispatch(mails: seq<Mail>, outcomes: seq<SendOutcome>): (log: seq<Attempt>)
    requires |outcomes| == |mails|
    ensures |log| <= |mails|
    ensures forall i :: 0 <= i < |log| ==> log[i] == Attempt(mails[i], outcomes[i])
    ensures forall i :: 0 <= i < |log| - 1 ==> outcomes[i] == Delivered
    ensures |log| == |mails| || (|log| > 0 && outcomes[|log| - 1] == Failed)
  {
    if mails == [] then []
    else if outcomes[0] == Failed then [Attempt(mails[0], Failed)]
    else
      var rest := Dispatch(mails[1..], outcomes[1..]);
      var log := [Attempt(mails[0], Delivered)] + rest;
      assert forall i :: 0 <= i < |log| ==> log[i] == Attempt(mails[i], outcomes[i]) by {
        assert outcomes[0] == Delivered;
        forall i | 0 < i < |log|
          ensures log[i] == Attempt(mails[i], outcomes[i])
        {
          assert log[i] == rest[i - 1];
          assert mails[1..][i - 1] == mails[i] && outcomes[1..][i - 1] == outcomes[i];
        }
      }
      log
  }

  /** The two sends of the handler: the second is attempted only after the first went out. */
  lemma DispatchTwo(m0: Mail, m1: Mail, o0: SendOutcome, o1: SendOutcome)
    ensures Dispatch([m0, m1], [o0, o1])
            == if o0 == Failed then [Attempt(m0, Failed)] else [Attempt(m0, Delivered), Attempt(m1, o1)]
  {
    assert [m0, m1][1..] == [m1] && [o0, o1][1..] == [o1];
    assert [m1][1..] == [] && [o1][1..] == [];
  }

  predicate AllDelivered(log: seq<Attempt>) {
    forall i :: 0 <= i < |log| ==> log[i].outcome == Delivered
  }

  /** Every mail goes out exactly when the transport accepts every one of them. */
  lemma DispatchSucceedsIffAllDelivered(mails: seq<Mail>, outcomes: seq<SendOutcome>)
    requires |outcomes| == |mails|
    ensures var log := Dispatch(mails, outcomes);
            (|log| == |mails| && AllDelivered(log))
            <==> forall i :: 0 <= i < |outcomes| ==> outcomes[i] == Delivered
  {
  }

  /** The two mails of an accepted application: first the confirmation to the applicant,
      then the notice to the administration. */
  function Mails(p: Payload, c: Config): seq<Mail> {
    [ Mail(Confirmation, Sender(c), p.email, p),
      Mail(AdminNotice, Sender(c), Str(AdminAddress(c)), p) ]
  }

  datatype ReplyBody = Ack(ok: bool, message: string) | ErrorReply(error: string)
  datatype Reply = Reply(status: int, body: ReplyBody)

  /** The reply and the mails attempted, in order, with what the transport answered. */
  datatype Handled = Handled(reply: Reply, log: seq<Attempt>)

  const SentMessage := "Correos enviados"
  const FailureMessage := "No se pudo procesar la solicitud."

  /** Both mail texts interpolate all five fields (server.js builds them before the first
      send), so every field must convert. */
  predicate Renders(p: Payload) {
    Converts(p.nombre) && Converts(p.edad) && Converts(p.nacionalidad) && Converts(p.razon)
    && Converts(p.email)
  }

  function BodyFields(body: Option<Payload>): Payload {
    match body
    case Some(p) => p
    case None => NoFields
  }

  /** The whole handler. `applicantSend` and `adminSend` are the transport's answers to the
      first and second `sendMail` call. */
  function HandleApply(body: Option<Payload>, c: Config,
                       applicantSend: SendOutcome, adminSend: SendOutcome): (h: Handled)
    ensures var p := BodyFields(body);
            Validate(p).Failure? ==>
              var r := Validate(p).error;
              h == Handled(Reply(RejectionStatus(r), ErrorReply(RejectionText(r))), [])
    ensures var p := BodyFields(body);
            Eligible(p) && !Renders(p) ==> h == Handled(Reply(500, ErrorReply(FailureMessage)), [])
    ensures var p := BodyFields(body);
            Eligible(p) && Renders(p) ==>
              && 1 <= |h.log| <= 2
              && h.log[0] == Attempt(Mail(Confirmation, Sender(c), p.email, p), applicantSend)
              && (|h.log| == 2 <==> applicantSend == Delivered)
              && (|h.log| == 2 ==> h.log[1] == Attempt(Mail(AdminNotice, Sender(c), Str(AdminAddress(c)), p), adminSend))
    ensures h.reply.status in {200, 400, 500}
    ensures h.reply.status == 200
            <==> && Eligible(BodyFields(body)) && Renders(BodyFields(body))
                 && applicantSend == Delivered && adminSend == Delivered
    ensures h.reply.status == 200 ==> h.reply.body == Ack(true, SentMessage)
    ensures var p := BodyFields(body);
            h.reply.status == 500
            <==> || Validate(p) == Failure(ConversionThrew)
                 || (Eligible(p) && (!Renders(p) || applicantSend == Failed || adminSend == Failed))
    ensures h.reply.status == 500 ==> h.reply.body == ErrorReply(FailureMessage)
  {
    var p := BodyFields(body);
    match Validate(p)
    case Failure(e) => Handled(Reply(RejectionStatus(e), ErrorReply(RejectionText(e))), [])
    case Success(_) =>
      if !Renders(p) then Handled(Reply(500, ErrorReply(FailureMessage)), []) else
      DispatchTwo(Mails(p, c)[0], Mails(p, c)[1], applicantSend, adminSend);
      var log := Dispatch(Mails(p, c), [applicantSend, adminSend]);
      if |log| == 2 && log[1].outcome == Delivered then Handled(Reply(200, Ack(true, SentMessage)), log)
      else Handled(Reply(500, ErrorReply(FailureMessage)), log)
  }

  /** The confirmation can reach the applicant while the request still fails: when the
      administration mail is refused the reply is 500 although the first mail went out. */
  lemma ConfirmedYetFailed(p: Payload, c: Config)
    requires Eligible(p) && Renders(p)
    ensures var h := HandleApply(Some(p), c, Delivered, Failed);
            && h.reply == Reply(500, ErrorReply(FailureMessage))
            && h.log[0].outcome == Delivered
            && h.log[0].mail.to == p.email
  {
  }

  // The example words below are parameters fixed by the precondition rather than literals
  // in the postcondition: that keeps the proofs cheap for the verifier.

  lemma CapitalsSpellColombiano(w: string)
    requires w == "COLOMBIANO"
    ensures IsColombiano(w)
  {
    TrimKeepsWord(w);
    assert Lower(w) == AcceptedNationality;
  }

  lemma PaddedCapitalsSpellColombiano(before: string, w: string, after: string)
    requires before == " " && w == "COLOMBIANO" && after == "\t"
    ensures IsColombiano(before + w + after)
  {
    CapitalsSpellColombiano(w);
    NationalityIgnoresPadding(before, w, after);
  }

  /** An applicant aged 25 whose nationality is written " COLOMBIANO\t" is accepted, and
      with both sends delivered the reply is 200 after two mails. */
  lemma AcceptedApplicationExample(before: string, w: string, after: string, c: Config)
    requires before == " " && w == "COLOMBIANO" && after == "\t"
    ensures var p := Payload(Str("Ana"), Num(Finite(25.0)), Str(before + w + after), Str("work"),
                             Str("a@b.com"));
            var h := HandleApply(Some(p), c, Delivered, Delivered);
            h.reply == Reply(200, Ack(true, SentMessage)) && |h.log| == 2
  {
    ExampleIsEligible(Payload(Str("Ana"), Num(Finite(25.0)), Str(before + w + after), Str("work"),
                              Str("a@b.com")), before, w, after);
  }

  lemma ExampleIsEligible(p: Payload, before: string, w: string, after: string)
    requires before == " " && w == "COLOMBIANO" && after == "\t"
    requires p.nombre.Str? && p.nombre.s != [] && p.email.Str? && p.email.s != []
    requires p.edad == Num(Finite(25.0)) && p.nacionalidad == Str(before + w + after)
    ensures Eligible(p)
  {
    PaddedCapitalsSpellColombiano(before, w, after);
  }

  /** An eligible applicant whose name is an object with its own `toString` key gets 500:
      building the first mail's text throws, so nothing is mailed. */
  lemma UnrenderableNameIsNotMailed(p: Payload, c: Config, o1: SendOutcome, o2: SendOutcome)
    requires Eligible(p) && p.nombre == Object(true)
    ensures HandleApply(Some(p), c, o1, o2) == Handled(Reply(500, ErrorReply(FailureMessage)), [])
  {
  }

  /** An age that is an object with its own `toString` key makes `Number(edad)` throw: 500,
      not "Edad inválida.", and nothing is mailed. */
  lemma UnconvertibleAgeFails(p: Payload, c: Config, o1: SendOutcome, o2: SendOutcome)
    requires Truthy(p.nombre) && Truthy(p.email) && p.edad == Object(true)
    ensures HandleApply(Some(p), c, o1, o2) == Handled(Reply(500, ErrorReply(FailureMessage)), [])
  {
  }

  /** A 17-year-old is turned away as under age, and nothing is mailed. */
  lemma UnderageExample(p: Payload, c: Config, o1: SendOutcome, o2: SendOutcome)
    requires Truthy(p.nombre) && Truthy(p.email) && p.edad == Num(Finite(17.0))
    ensures HandleApply(Some(p), c, o1, o2)
            == Handled(Reply(400, ErrorReply("Menor de edad. No aplica.")), [])
  {
  }
}

=== FILE: jsvalues.dfy ===
/**
 * The loosely typed values a JSON request body delivers to the server, with the two
 * JavaScript coercions the code relies on: truthiness (`!x`) and `Number(x)`.
 */
module JsValues {
  import opened Wrappers
  import opened Text

  /** A JavaScript number: NaN, a finite value, or one of the two infinities. Finite values
      are exact: rounding to double precision is not modelled. */
  datatype JsNumber = NaN | Finite(value: real) | Infinity(negative: bool)

  /** `!x` is false for the number `x`: it is neither NaN nor zero. */
  predicate NumberTruthy(x: JsNumber) {
    !x.NaN? && x != Finite(0.0)
  }

  /** `x < r`. Every comparison with NaN is false. */
  predicate LessThan(x: JsNumber, r: real) {
    match x
    case NaN => false
    case Finite(v) => v < r
    case Infinity(negative) => negative
  }

  /** `x <= r`. */
  predicate AtMost(x: JsNumber, r: real) {
    match x
    case NaN => false
    case Finite(v) => v <= r
    case Infinity(negative) => negative
  }

  /** A field of a parsed JSON body; `Undefined` is a missing key. `Object` is a non-array
      object; `ownToString` records whether it has a `toString` key of its own, whose value,
      coming from JSON, is never a function. */
  datatype JsValue =
    | Undefined
    | Null
    | Bool(b: bool)
    | Num(n: JsNumber)
    | Str(s: string)
    | Object(ownToString: bool)

  /** The negation of JavaScript's `!v`. */
  predicate Truthy(v: JsValue) {
    match v
    case Undefined => false
    case Null => false
    case Bool(b) => b
    case Num(n) => NumberTruthy(n)
    case Str(s) => s != []
    case Object(_) => true
  }

  /** Converting `v` to a primitive (`Number(v)`, `String(v)`, a template literal) does not
      throw. An object converts through a callable `valueOf` or `toString` that returns a
      primitive. The inherited `valueOf` returns the object itself, so only the inherited
      `toString` can succeed, and a `toString` key of the object's own hides it: the
      conversion throws a `TypeError`. */
  predicate Converts(v: JsValue) {
    !(v.Object? && v.ownToString)
  }

  predicate IsDigit(c: char) {
    '0' <= c <= '9'
  }

  predicate AllDigits(s: string) {
    forall i :: 0 <= i < |s| ==> IsDigit(s[i])
  }

  /** The value of a string of decimal digits, most significant first. */
  function DigitsValue(s: string): nat
    requires AllDigits(s)
    decreases |s|
  {
    if s == [] then 0 else 10 * DigitsValue(s[..|s| - 1]) + (s[|s| - 1] as int - '0' as int)
  }

  function Pow10(n: nat): (r: nat)
    ensures r >= 1
  {
    if n == 0 then 1 else 10 * Pow10(n - 1)
  }

  /** The length of the longest run of digits at the start of `s`. */
  function LeadingDigits(s: string): (n: nat)
    ensures n <= |s|
    ensures AllDigits(s[..n])
    ensures n == |s| || !IsDigit(s[n])
  {
    if s == [] || !IsDigit(s[0]) then 0
    else
      var m := LeadingDigits(s[1..]);
      assert s[..m + 1] == [s[0]] + s[1..][..m];
      m + 1
  }

  /** An unsigned decimal numeral `digits`, `digits.`, `digits.digits` or `.digits`;
      anything else reads as NaN. */
  function UnsignedDecimal(t: string): Option<real> {
    var n := LeadingDigits(t);
    if n == |t| then
      if n > 0 then Some(DigitsValue(t) as real) else None
    else if t[n] != '.' then None
    else
      var frac := t[n + 1..];
      if AllDigits(frac) && (n > 0 || |frac| > 0)
      then Some(DecimalValue(t[..n], frac))
      else None
  }

  /** The value of the numeral `whole.frac`. */
  function DecimalValue(whole: string, frac: string): real
    requires AllDigits(whole) && AllDigits(frac)
  {
    DigitsValue(whole) as real + DigitsValue(frac) as real / Pow10(|frac|) as real
  }

  const InfinityWord := "Infinity"

  /** An unsigned numeral: a decimal one, or `Infinity`. Anything else reads as NaN. */
  function UnsignedNumber(t: string): JsNumber {
    match UnsignedDecimal(t)
    case Some(v) => Finite(v)
    case None => if t == InfinityWord then Infinity(false) else NaN
  }

  function Negate(x: JsNumber): JsNumber {
    match x
    case NaN => NaN
    case Finite(v) => Finite(-v)
    case Infinity(negative) => Infinity(!negative)
  }

  /** `Number(s)` for a string: surrounding white space is ignored, the empty string reads
      as 0, and a signed decimal numeral or a signed `Infinity` reads as its value. */
  function NumberOf(s: string): JsNumber {
    var t := Trim(s);
    if t == [] then Finite(0.0)
    else if t[0] == '-' then Negate(UnsignedNumber(t[1..]))
    else if t[0] == '+' then UnsignedNumber(t[1..])
    else UnsignedNumber(t)
  }

  /** `Number(v)` for any field value that `Converts`; an object that converts reads as
      NaN. */
  function ToNumber(v: JsValue): JsNumber {
    match v
    case Undefined => NaN
    case Null => Finite(0.0)
    case Bool(b) => Finite(if b then 1.0 else 0.0)
    case Num(n) => n
    case Str(s) => NumberOf(s)
    case Object(_) => NaN
  }

  /** `String(v)`, or `None` when it is not rendered: for a number (its decimal form is not
      modelled) and for an object whose conversion throws. */
  function StringForm(v: JsValue): Option<string> {
    match v
    case Undefined => Some("undefined")
    case Null => Some("null")
    case Bool(b) => Some(if b then "true" else "false")
    case Num(_) => None
    case Str(s) => Some(s)
    case Object(ownToString) => if ownToString then None else Some("[object Object]")
  }

  /** What a number becomes once `JSON.stringify` has written it and `JSON.parse` has read
      it back: a finite number arrives unchanged, NaN and the infinities arrive as `null`. */
  function ThroughJson(x: JsNumber): (v: JsValue)
    ensures v.Num? <==> x.Finite?
    ensures !x.Finite? ==> v == Null
    ensures ToNumber(v) == if x.Finite? then x else Finite(0.0)
  {
    if x.Finite? then Num(x) else Null
  }

  function DigitChar(d: nat): (c: char)
    requires d < 10
    ensures IsDigit(c) && c as int - '0' as int == d
  {
    ('0' as int + d) as char
  }

  /** The decimal numeral of `n`, as a user types a whole-number age. */
  function ShowNat(n: nat): (s: string)
    ensures s != [] && AllDigits(s)
  {
    if n < 10 then [DigitChar(n)] else ShowNat(n / 10) + [DigitChar(n % 10)]
  }

  lemma {:induction false} DigitsValueOfShowNat(n: nat)
    ensures DigitsValue(ShowNat(n)) == n
  {
    if n >= 10 {
      var s := ShowNat(n);
      assert s[..|s| - 1] == ShowNat(n / 10);
      DigitsValueOfShowNat(n / 10);
    }
  }

  lemma TrimKeepsWord(s: string)
    requires s != [] && !IsSpace(s[0]) && !IsSpace(s[|s| - 1])
    ensures Trim(s) == s
  {
    assert TrimStart(s) == s;
    assert TrimEnd(s) == s;
  }

  lemma UnsignedDecimalOfDigits(s: string)
    requires s != [] && AllDigits(s)
    ensures UnsignedDecimal(s) == Some(DigitsValue(s) as real)
  {
    assert LeadingDigits(s) == |s|;
    assert s[..|s|] == s;
  }

  /** A whole number typed in decimal reads back as that number. */
  lemma NumberOfShowNat(n: nat)
    ensures NumberOf(ShowNat(n)) == Finite(n as real)
  {
    var s := ShowNat(n);
    TrimKeepsWord(s);
    UnsignedDecimalOfDigits(s);
    DigitsValueOfShowNat(n);
  }

  /** A minus sign in front of a whole number reads as its negation. */
  lemma NumberOfNegative(n: nat)
    ensures NumberOf("-" + ShowNat(n)) == Finite(-(n as real))
  {
    var s := ShowNat(n);
    var t := "-" + s;
    assert t[|t| - 1] == s[|s| - 1];
    TrimKeepsWord(t);
    assert t[1..] == s;
    UnsignedDecimalOfDigits(s);
    DigitsValueOfShowNat(n);
  }

  /** A minus sign in front of a numeral with a fractional part reads as its negation. */
  lemma NumberOfNegativeFraction(w: string, fr: string)
    requires w != [] && AllDigits(w) && fr != [] && AllDigits(fr)
    ensures NumberOf("-" + w + "." + fr) == Finite(-DecimalValue(w, fr))
  {
    var t := "-" + w + "." + fr;
    assert t[|t| - 1] == fr[|fr| - 1];
    TrimKeepsWord(t);
    assert t[1..] == w + "." + fr;
    UnsignedDecimalOfFraction(w, fr);
  }

  /** A decimal numeral with a fractional part reads as its exact value: nothing makes an
      age a whole number. */
  lemma NumberOfFraction(w: string, fr: string)
    requires w != [] && AllDigits(w) && fr != [] && AllDigits(fr)
    ensures NumberOf(w + "." + fr) == Finite(DecimalValue(w, fr))
  {
    var t := w + "." + fr;
    assert t[0] == w[0] && t[|t| - 1] == fr[|fr| - 1];
    TrimKeepsWord(t);
    UnsignedDecimalOfFraction(w, fr);
  }

  lemma UnsignedDecimalOfFraction(w: string, fr: string)
    requires AllDigits(w) && AllDigits(fr) && fr != []
    ensures UnsignedDecimal(w + "." + fr) == Some(DecimalValue(w, fr))
  {
    var t := w + ("." + fr);
    assert w + "." + fr == t;
    LeadingDigitsStopAt(w, "." + fr);
    var n := LeadingDigits(t);
    assert t[..n] == w;
    assert t[n] == '.';
    assert t[n + 1..] == fr;
  }

  /** The leading digits of `w + rest` are those of `w` when `rest` starts with a non-digit. */
  lemma {:induction false} LeadingDigitsStopAt(w: string, rest: string)
    requires AllDigits(w) && rest != [] && !IsDigit(rest[0])
    ensures LeadingDigits(w + rest) == |w|
    decreases |w|
  {
    if w == [] {
      assert w + rest == rest;
    } else {
      assert (w + rest)[1..] == w[1..] + rest;
      assert (w + rest)[0] == w[0];
      LeadingDigitsStopAt(w[1..], rest);
    }
  }

  /** An empty or all-white-space string reads as 0. */
  lemma BlankReadsAsZero(s: string)
    requires Blank(s)
    ensures NumberOf(s) == Finite(0.0)
  {
    TrimEmptyIffBlank(s);
  }

  /** The word `Infinity` reads as the positive infinity, and with a minus sign in front as
      the negative one. */
  lemma NumberOfInfinity(w: string)
    requires w == InfinityWord
    ensures NumberOf(w) == Infinity(false)
    ensures NumberOf("-" + w) == Infinity(true)
  {
    assert LeadingDigits(w) == 0;
    TrimKeepsWord(w);
    var m := "-" + w;
    assert m[|m| - 1] == w[|w| - 1];
    TrimKeepsWord(m);
    assert m[1..] == w;
  }
}

=== FILE: text.dfy ===
/**
 * The two string operations the form and the server apply to user input:
 * JavaScript's `trim()` and `toLowerCase()`, restricted to ASCII.
 */
module Text {

  /** ASCII white space as `trim()` strips it and the regular-expression class `\s` matches it:
      space, tab, line feed, vertical tab, form feed and carriage return. */
  predicate IsSpace(c: char) {
    c == ' ' || c == '\t' || c == '\n' || c == '\U{000B}' || c == '\U{000C}' || c == '\r'
  }

  /** Every character of `s` is white space (the empty string included). */
  predicate Blank(s: string) {
    forall i :: 0 <= i < |s| ==> IsSpace(s[i])
  }

  predicate IsUpper(c: char) {
    'A' <= c <= 'Z'
  }

  /** `toLowerCase()` on one ASCII character. */
  function LowerChar(c: char): (r: char)
    ensures !IsUpper(r)
    ensures !IsUpper(c) ==> r == c
    ensures IsSpace(r) <==> IsSpace(c)
    ensures r == '@' <==> c == '@'
    ensures r == '.' <==> c == '.'
  {
    if IsUpper(c) then (c as int + 32) as char else c
  }

  /** `toLowerCase()`: every character lower-cased in place. */
  function Lower(s: string): (r: string)
    ensures |r| == |s|
    ensures forall i :: 0 <= i < |s| ==> r[i] == LowerChar(s[i])
  {
    seq(|s|, i requires 0 <= i < |s| => LowerChar(s[i]))
  }

  /** Leading white space removed. The result does not start with white space; that it is
      what is left of `s` after dropping only white space is `TrimStartDrops`. */
  function TrimStart(s: string): (r: string)
    ensures |r| <= |s|
    ensures r == [] || !IsSpace(r[0])
  {
    if |s| > 0 && IsSpace(s[0]) then TrimStart(s[1..]) else s
  }

  /** Trailing white space removed. The result does not end with white space; that it is
      what is left of `s` after dropping only white space is `TrimEndDrops`. */
  function TrimEnd(s: string): (r: string)
    ensures |r| <= |s|
    ensures r == [] || !IsSpace(r[|r| - 1])
  {
    if |s| > 0 && IsSpace(s[|s| - 1]) then TrimEnd(s[..|s| - 1]) else s
  }

  /** `TrimStart` keeps a suffix of `s` and drops only white space before it. */
  lemma {:induction false} TrimStartDrops(s: string)
    ensures TrimStart(s) == s[|s| - |TrimStart(s)|..]
    ensures Blank(s[..|s| - |TrimStart(s)|])
    decreases |s|
  {
    if |s| > 0 && IsSpace(s[0]) {
      var t := s[1..];
      TrimStartDrops(t);
      var n := |s| - |TrimStart(s)|;
      assert TrimStart(s) == TrimStart(t);
      assert t[|t| - |TrimStart(t)|..] == s[n..];
      forall i | 0 <= i < n
        ensures IsSpace(s[..n][i])
      {
        if i > 0 {
          assert s[..n][i] == t[..n - 1][i - 1];
        }
      }
    }
  }

  /** `TrimEnd` keeps a prefix of `s` and drops only white space after it. */
  lemma {:induction false} TrimEndDrops(s: string)
    ensures TrimEnd(s) == s[..|TrimEnd(s)|]
    ensures Blank(s[|TrimEnd(s)|..])
    decreases |s|
  {
    if |s| > 0 && IsSpace(s[|s| - 1]) {
      var t := s[..|s| - 1];
      TrimEndDrops(t);
      var n := |TrimEnd(s)|;
      assert TrimEnd(s) == TrimEnd(t);
      assert t[..n] == s[..n];
      forall i | 0 <= i < |s| - n
        ensures IsSpace(s[n..][i])
      {
        if n + i < |t| {
          assert s[n..][i] == t[n..][i];
        }
      }
    }
  }

  /** `r` is the slice of `s` starting at `lo`, with only white space before and after it. */
  predicate PaddedBy(s: string, lo: int, r: string) {
    && 0 <= lo <= |s| - |r|
    && r == s[lo..lo + |r|]
    && Blank(s[..lo])
    && Blank(s[lo + |r|..])
  }

  /** `trim()`: white space removed at both ends. The result neither starts nor ends with
      white space; `TrimPads` states what was removed. */
  function Trim(s: string): (r: string)
    ensures |r| <= |s|
    ensures r == [] || (!IsSpace(r[0]) && !IsSpace(r[|r| - 1]))
  {
    var t := TrimStart(s);
    TrimEndDrops(t);
    TrimEnd(t)
  }

  /** `trim()` keeps a slice of `s` and removes only white space on either side of it. */
  lemma TrimPads(s: string)
    ensures PaddedBy(s, |s| - |TrimStart(s)|, Trim(s))
  {
    var t := TrimStart(s);
    var r := Trim(s);
    var lo := |s| - |t|;
    TrimStartDrops(s);
    TrimEndDrops(t);
    assert r == s[lo..lo + |r|] by {
      assert r == t[..|r|];
    }
    assert Blank(s[lo + |r|..]) by {
      assert s[lo + |r|..] == t[|r|..];
    }
  }

  /** Trimming an already trimmed string changes nothing. */
  lemma TrimIdempotent(s: string)
    ensures Trim(Trim(s)) == Trim(s)
  {
  }

  /** `trim()` yields the empty string exactly for all-white-space input. */
  lemma TrimEmptyIffBlank(s: string)
    ensures Trim(s) == [] <==> Blank(s)
  {
    TrimPads(s);
    var lo := |s| - |TrimStart(s)|;
    if Trim(s) == [] {
      assert s == s[..lo] + s[lo..];
      BlankConcat(s[..lo], s[lo..]);
    }
  }

  lemma BlankConcat(a: string, b: string)
    requires Blank(a) && Blank(b)
    ensures Blank(a + b)
  {
  }

  lemma {:induction false} TrimStartSkipsBlank(w: string, x: string)
    requires Blank(w)
    ensures TrimStart(w + x) == TrimStart(x)
    decreases |w|
  {
    if w == [] {
      assert w + x == x;
    } else {
      assert (w + x)[1..] == w[1..] + x;
      TrimStartSkipsBlank(w[1..], x);
    }
  }

  lemma {:induction false} TrimStartAppend(s: string, w: string)
    requires !Blank(s)
    ensures TrimStart(s + w) == TrimStart(s) + w
    decreases |s|
  {
    if IsSpace(s[0]) {
      assert (s + w)[1..] == s[1..] + w;
      assert !Blank(s[1..]) by {
        var k :| 0 <= k < |s| && !IsSpace(s[k]);
        assert s[1..][k - 1] == s[k];
      }
      TrimStartAppend(s[1..], w);
    }
  }

  lemma {:induction false} TrimEndSkipsBlank(x: string, w: string)
    requires Blank(w)
    ensures TrimEnd(x + w) == TrimEnd(x)
    decreases |w|
  {
    if w == [] {
      assert x + w == x;
    } else {
      var w' := w[..|w| - 1];
      assert (x + w)[..|x + w| - 1] == x + w';
      TrimEndSkipsBlank(x, w');
    }
  }

  lemma TrimDropsLeadingBlank(before: string, s: string, after: string)
    requires Blank(before)
    ensures Trim(before + s + after) == TrimEnd(TrimStart(s + after))
  {
    assert before + s + after == before + (s + after);
    TrimStartSkipsBlank(before, s + after);
  }

  lemma TrimBlankWithTrailing(s: string, after: string)
    requires Blank(s) && Blank(after)
    ensures TrimEnd(TrimStart(s + after)) == Trim(s)
  {
    TrimStartSkipsBlank(s + after, []);
    TrimStartSkipsBlank(s, []);
    assert s + after + [] == s + after && s + [] == s;
  }

  lemma TrimWordWithTrailing(s: string, after: string)
    requires !Blank(s) && Blank(after)
    ensures TrimEnd(TrimStart(s + after)) == Trim(s)
  {
    TrimStartAppend(s, after);
    TrimEndSkipsBlank(TrimStart(s), after);
  }

  /** White space around a value never changes what `trim()` makes of it. */
  lemma TrimIgnoresPadding(before: string, s: string, after: string)
    requires Blank(before) && Blank(after)
    ensures Trim(before + s + after) == Trim(s)
  {
    TrimDropsLeadingBlank(before, s, after);
    if Blank(s) {
      TrimBlankWithTrailing(s, after);
    } else {
      TrimWordWithTrailing(s, after);
    }
  }

  /** Lower-casing twice is lower-casing once. */
  lemma LowerIdempotent(s: string)
    ensures Lower(Lower(s)) == Lower(s)
  {
  }

  lemma {:induction false} TrimStartCommutesWithLower(s: string)
    ensures TrimStart(Lower(s)) == Lower(TrimStart(s))
    decreases |s|
  {
    if |s| > 0 && IsSpace(s[0]) {
      assert Lower(s)[1..] == Lower(s[1..]);
      TrimStartCommutesWithLower(s[1..]);
    }
  }

  lemma {:induction false} TrimEndCommutesWithLower(s: string)
    ensures TrimEnd(Lower(s)) == Lower(TrimEnd(s))
    decreases |s|
  {
    if |s| > 0 && IsSpace(s[|s| - 1]) {
      assert Lower(s)[..|s| - 1] == Lower(s[..|s| - 1]);
      TrimEndCommutesWithLower(s[..|s| - 1]);
    }
  }

  /** Trimming and lower-casing can be done in either order. */
  lemma TrimCommutesWithLower(s: string)
    ensures Trim(Lower(s)) == Lower(Trim(s))
  {
    TrimStartCommutesWithLower(s);
    TrimEndCommutesWithLower(TrimStart(s));
  }
}

=== FILE: wrappers.dfy ===
/** Failure-carrying datatypes shared by the whole model. */
module Wrappers {

  /** A value that may be absent. */
  datatype Option<+T> = None | Some(value: T)

  /** The outcome of a check: a value on success, an error otherwise. */
  datatype Result<+R, +E> = Success(value: R) | Failure(error: E)
}
